=== FILE: README.md ===
# RocketShoes cart manager in Dafny

This project models the cart manager of the RocketShoes storefront
(`src/hooks/useCart.tsx`). The manager holds an ordered cart of product lines.
Each line is a product record plus a requested `amount`. It offers three
operations:

- `addProduct(productId)` checks the stock. It then either raises the
  amount of the existing line by one, or appends the catalogue record with
  amount 1.
- `removeProduct(productId)` deletes the first line with that id.
- `updateProductAmount({productId, amount})` ignores non-positive amounts,
  refuses amounts above the stock, and sets the amount of an existing line.

Every successful change replaces the cart state and writes the whole cart
to the `@RocketShoes:cart` storage slot.

Files:

- `cart.dfy` (module `Cart`): the values. It holds the product line, the
  catalogue record, the outcome of an operation (`Ok`, `OutOfStock`,
  `AddError`, `RemoveError`, `UpdateError`, `NoOp`) and the lookup `FindIndex`.
  It also gives each operation as a function `Add`, `Remove` and `Update`,
  from the old cart and the remote answers to an outcome and a new cart.
- `cart_laws.dfy` (module `CartLaws`): what the operations promise.
  It covers every branch's outcome and the exact change to the cart. It also
  proves the uniqueness of ids and positivity of amounts (`WellFormed`), and
  the quantity of every product before and after (`CurrentAmount`). Last come
  the inverse pairs (removal undoes an append, an update undoes an increment)
  and a whole session.
- `cart_provider.dfy` (module `CartComponent`): the component as it runs.
  It is a class `CartProvider` with mutable fields `cart` and `stored` (the storage slot).
  Its methods follow the source step by step: copy the cart, find the line,
  check the stock, change the copy, commit. Each method is proved to end in
  the state the matching function of `Cart` gives. It keeps the invariant
  that reloading the slot gives back the cart in memory (`Valid`).

The remote answers are parameters. `stock: Option<int>` is the answer of
`GET /stock/{id}`, and `listing: Option<Listing>` that of `GET /products/{id}`.
`None` stands for a request that threw. The source catches that throw and
reports the add error or the update error, and the model does the same.
The notifications become the returned `Outcome`.

Behaviour worth noting in `src/hooks/useCart.tsx`:

- A failed stock request in `updateProductAmount` is caught at lines 135-136
  and reports the update error (`Update` gives `UpdateError`).
- A new line takes its id from the catalogue record `product.data`
  (lines 64-67), not from `productId`. Ids stay unique only when the
  catalogue answers with the requested product.
- The loaded cart is not checked (lines 32-33): whatever the slot holds
  becomes the cart. So `WellFormed` is kept by remove and update, and by add
  when the catalogue answers with the requested id, but never established at
  load.

## Model

| member | source | states |
|---|---|---|
| `Cart.FindIndex` | src/hooks/useCart.tsx:86 | the result is -1 exactly when no line has the id; otherwise it is the first line with that id |
| `Cart.CurrentAmount` | src/hooks/useCart.tsx:51 | an absent product's current amount is 0; in a cart of positive amounts, the current amount is positive exactly when the product is in the cart |
| `Cart.Add` | src/hooks/useCart.tsx:44-76 | an add ends in success, out of stock or the add error, and every failure leaves the cart unchanged |
| `Cart.Remove` | src/hooks/useCart.tsx:83-99 | a removal ends in success or the removal error; failure leaves the cart unchanged; success shortens it by one line |
| `Cart.Update` | src/hooks/useCart.tsx:107-138 | an update ends in success, no-op, out of stock or the update error; only success changes the cart, keeping its length and giving the product exactly the requested amount |
| `CartLaws.AddIncrementsExisting` | src/hooks/useCart.tsx:47-60 | adding a present product with stock for one more raises its line's amount by exactly 1; length, order and all other lines stay the same |
| `CartLaws.AddAppendsNew` | src/hooks/useCart.tsx:61-68 | adding an absent product with stock of at least 1 appends exactly one line (the catalogue record with amount 1) at the end, earlier lines unchanged; a failed catalogue request gives the add error and no change |
| `CartLaws.AddOutOfStockIff` | src/hooks/useCart.tsx:49-57 | an add is refused as out of stock if and only if the current amount (0 when absent) plus one exceeds the stock answer |
| `CartLaws.AddErrorIff` | src/hooks/useCart.tsx:49-74 | an add gives the add error if and only if the stock request fails, or a new line is allowed but the catalogue request fails |
| `CartLaws.AddKeepsWellFormed` | src/hooks/useCart.tsx:47-68 | an add keeps ids distinct and amounts positive, because it appends only when no line has the id |
| `CartLaws.AddAmounts` | src/hooks/useCart.tsx:51-68 | a successful add raises that product's quantity by exactly one and leaves every other product's quantity unchanged |
| `CartLaws.AddTwice` | src/hooks/useCart.tsx:44-76 | when the catalogue record carries the requested id, adding the same absent product twice with stock for two gives one line with amount 2, not two lines |
| `CartLaws.RemovePresent` | src/hooks/useCart.tsx:86-91 | removing a present id drops exactly the first line with it: the length drops by 1 and the other lines keep their order |
| `CartLaws.RemoveAbsent` | src/hooks/useCart.tsx:92-97 | removing an absent id gives the removal error and no change |
| `CartLaws.RemoveKeepsWellFormed` | src/hooks/useCart.tsx:86-89 | removal keeps ids distinct and amounts positive; afterwards the removed product is no longer in the cart |
| `CartLaws.RemoveAmounts` | src/hooks/useCart.tsx:86-91 | after a successful removal from a cart with distinct ids, that product's quantity is 0 and every other product's quantity is unchanged |
| `CartLaws.RemoveUndoesAdd` | src/hooks/useCart.tsx:61-91 | when the catalogue record carries the requested id, removing a product right after appending it gives back the original cart |
| `CartLaws.UpdateNonPositive` | src/hooks/useCart.tsx:112-114 | an update with amount <= 0 is a silent no-op and leaves the cart unchanged |
| `CartLaws.UpdateOutOfStock` | src/hooks/useCart.tsx:116-122 | an amount above the stock answer gives out of stock with no change, whether or not the product is in the cart (stock is checked before presence) |
| `CartLaws.UpdateSetsAmount` | src/hooks/useCart.tsx:124-130 | within stock, a present product's line gets exactly the requested amount and nothing else changes |
| `CartLaws.UpdateErrorIff` | src/hooks/useCart.tsx:116-136 | for a positive amount, the update error occurs if and only if the stock request fails, or the amount is within stock but the product is absent |
| `CartLaws.UpdateKeepsWellFormed` | src/hooks/useCart.tsx:124-128 | an update keeps ids distinct and amounts positive |
| `CartLaws.UpdateAmounts` | src/hooks/useCart.tsx:124-130 | a successful update leaves every other product's quantity unchanged |
| `CartLaws.UpdateIdempotent` | src/hooks/useCart.tsx:107-138 | repeating a successful update with the same arguments changes nothing more |
| `CartLaws.UpdateUndoesAdd` | src/hooks/useCart.tsx:59-60 | setting a product back to its former amount right after an increment gives back the original cart |
| `CartLaws.Session` | src/hooks/useCart.tsx:44-138 | empty cart with stock 5: add gives amount 1, a second add gives amount 2, asking for 10 is out of stock and changes nothing, and removal empties the cart |
| `CartComponent.CartProvider.constructor` | src/hooks/useCart.tsx:29-37 | the initial cart is read from the slot (empty when the slot is absent), nothing is written, and reloading the slot gives back the cart |
| `CartComponent.CartProvider.Commit` | src/hooks/useCart.tsx:71-72 | a commit sets the cart state and overwrites the slot with the whole new cart |
| `CartComponent.CartProvider.AddProduct` | src/hooks/useCart.tsx:44-76 | the new cart and the outcome are those of `Cart.Add`; success writes the new cart to the slot; every failure leaves cart and slot as they were; a well-formed cart stays well formed when the catalogue record carries the requested id |
| `CartComponent.CartProvider.RemoveProduct` | src/hooks/useCart.tsx:83-99 | the new cart and the outcome are those of `Cart.Remove`; success writes the slot; failure leaves cart and slot as they were; in a well-formed cart the product is gone afterwards |
| `CartComponent.CartProvider.UpdateProductAmount` | src/hooks/useCart.tsx:107-138 | the new cart and the outcome are those of `Cart.Update`; success writes the slot; no-op and failures leave cart and slot as they were; a well-formed cart stays well formed |

## Left out

- React wiring: `createContext` (line 22), the `useState` hook that holds the cart (line 29), the `CartContext.Provider` element (lines 140-146) and the `useCart` hook (lines 152-156). They publish the state and the three operations, and they fix which cart each operation reads (see the next line).
- `toast.error`: the notifications are the returned `Outcome` values.
- The HTTP client: the stock and catalogue answers are parameters. A stock response without an `amount` field is not modelled. In JavaScript every comparison with `undefined` is false, so such a response would let the change through.
- `localStorage` and JSON: the slot is a field holding the cart itself. The crash on a malformed stored value (lines 32-33) is not modelled.
- A failing storage write is not modelled: in the model `Commit` always succeeds. In the source `setCart` runs before `localStorage.setItem` inside the same `try` (lines 71-72, 90-91, 129-130). If `setItem` throws (storage full or disabled), the `catch` shows the add, remove or update error, yet the cart state has already been replaced and the slot still holds the old cart. On the add and update paths the existing line object has also already been changed in place. So "every failure leaves cart and slot as they were", as `AddProduct`, `RemoveProduct` and `UpdateProductAmount` promise, holds for the model but not for the source in that case.
- Stale-render commits: each operation copies the `cart` of the render that created it (lines 29, 46, 85, 124), and `setCart` (lines 71, 90, 129) changes that `cart` only at the next render. So operations called one after another within one render all start from the same cart, and the last commit wins. For example, `removeProduct(1); removeProduct(2)` on `[p1, p2]` leaves `[p1]`, in the state and in the slot, with no `await` involved. The model runs each operation on the cart the previous one committed: there the same two calls empty the cart.
- Async interleaving across the `await` points: each operation is atomic. The lost update of two overlapping adds is not captured.
- Aliasing: the source writes the new amount into the line object (lines 60 and 128), which the previously published array shares. Lines here are values, so observers of the old array seeing the change is not captured.
- Amounts are unbounded integers. JavaScript numbers allow fractional amounts and have a finite range.
- CartLaws.AddKeepsWellFormed: requires the catalogue record to carry the requested id. A record with another id would be appended as is, and could duplicate an id already in the cart.
- CartLaws.AddAmounts: requires the same matching catalogue record, for the same reason.
- CartLaws.AddTwice: requires the catalogue record to carry the requested id. With another id the second add finds no line for the requested id and appends a second line.
- CartLaws.RemoveUndoesAdd: requires the catalogue record to carry the requested id. With another id the appended line cannot be found by the requested id, and the removal gives the removal error.
- CartComponent.CartProvider.AddProduct: promises to keep `WellFormed` only when the catalogue record carries the requested id, for the reason given for `CartLaws.AddKeepsWellFormed`.

=== FILE: cart.dfy ===
/** The cart of the RocketShoes storefront as values: the line items, the
    lookups the cart manager performs on them, and what each of its three
    operations does to a cart, as functions of the old cart and of the answers
    of the remote stock and catalogue services. */
module Cart {

  datatype Option<+T> = None | Some(value: T)

  /** Descriptive attributes of a product, as the catalogue returns them. */
  datatype Details = Details(title: string, price: real, image: string)

  /** A catalogue record: the answer of `GET /products/{id}`. */
  datatype Listing = Listing(id: int, details: Details)

  /** A cart line: the product's attributes plus the requested quantity. */
  datatype Product = Product(id: int, details: Details, amount: int)

  /** What an operation reports in place of the source's notifications:
      `OutOfStock` is "Quantidade solicitada fora de estoque", the three
      errors are the add, remove and update failure messages, and `NoOp` is
      the silent return of an update with a non-positive amount. */
  datatype Outcome = Ok | OutOfStock | AddError | RemoveError | UpdateError | NoOp

  /** The result of an operation: its outcome and the cart it leaves. */
  datatype Step = Step(outcome: Outcome, cart: seq<Product>)

  predicate InCart(cart: seq<Product>, id: int) {
    exists i :: 0 <= i < |cart| && cart[i].id == id
  }

  /** No two lines share a product id. */
  predicate DistinctIds(cart: seq<Product>) {
    forall i, j :: 0 <= i < j < |cart| ==> cart[i].id != cart[j].id
  }

  predicate PositiveAmounts(cart: seq<Product>) {
    forall i :: 0 <= i < |cart| ==> cart[i].amount >= 1
  }

  /** The cart invariant the operations keep. */
  predicate WellFormed(cart: seq<Product>) {
    DistinctIds(cart) && PositiveAmounts(cart)
  }

  /** `findIndex(product => product.id === id)`: the first line with that id,
      or -1 when there is none (`find` returns the line at this index). */
  function FindIndex(cart: seq<Product>, id: int): (r: int)
    ensures -1 <= r < |cart|
    ensures r == -1 <==> !InCart(cart, id)
    ensures r >= 0 ==> cart[r].id == id && forall j :: 0 <= j < r ==> cart[j].id != id
  {
    if |cart| == 0 then -1
    else if cart[0].id == id then 0
    else
      var r := FindIndex(cart[1..], id);
      assert forall i :: 1 <= i < |cart| ==> cart[i] == cart[1..][i - 1];
      if r == -1 then -1 else r + 1
  }

  /** The quantity of `id` already in the cart, 0 when it is absent. */
  function CurrentAmount(cart: seq<Product>, id: int): (a: int)
    ensures !InCart(cart, id) ==> a == 0
    ensures PositiveAmounts(cart) ==> (a >= 1 <==> InCart(cart, id))
  {
    var i := FindIndex(cart, id);
    if i >= 0 then cart[i].amount else 0
  }

  /** The line appended for a product that was not in the cart yet: the
      catalogue record with amount 1. */
  function NewProduct(l: Listing): (p: Product) {
    Product(l.id, l.details, 1)
  }

  /** The same cart with the amount of line `i` replaced. */
  function SetAmount(cart: seq<Product>, i: nat, amount: int): (r: seq<Product>)
    requires i < |cart|
  {
    cart[i := cart[i].(amount := amount)]
  }

  /** `addProduct(productId)`, given the answer of the stock request (`None`
      when it failed) and of the catalogue request (`None` when it failed). */
  function Add(cart: seq<Product>, productId: int, stock: Option<int>, listing: Option<Listing>): (s: Step)
    ensures s.outcome == Ok || s.outcome == OutOfStock || s.outcome == AddError
    ensures s.outcome != Ok ==> s.cart == cart
  {
    var i := FindIndex(cart, productId);
    if stock.None? then Step(AddError, cart)
    else
      var amount := CurrentAmount(cart, productId) + 1;
      if amount > stock.value then Step(OutOfStock, cart)
      else if i >= 0 then Step(Ok, SetAmount(cart, i, amount))
      else if listing.None? then Step(AddError, cart)
      else Step(Ok, cart + [NewProduct(listing.value)])
  }

  /** `removeProduct(productId)`: drop the first line with that id. */
  function Remove(cart: seq<Product>, productId: int): (s: Step)
    ensures s.outcome == Ok || s.outcome == RemoveError
    ensures s.outcome != Ok ==> s.cart == cart
    ensures s.outcome == Ok ==> |s.cart| == |cart| - 1
  {
    var i := FindIndex(cart, productId);
    if i >= 0 then Step(Ok, cart[..i] + cart[i + 1..])
    else Step(RemoveError, cart)
  }

  /** `updateProductAmount({productId, amount})`, given the answer of the
      stock request (`None` when it failed). */
  function Update(cart: seq<Product>, productId: int, amount: int, stock: Option<int>): (s: Step)
    ensures s.outcome == Ok || s.outcome == NoOp || s.outcome == OutOfStock || s.outcome == UpdateError
    ensures s.outcome != Ok ==> s.cart == cart
    ensures s.outcome == Ok ==> |s.cart| == |cart| && CurrentAmount(s.cart, productId) == amount
  {
    if amount <= 0 then Step(NoOp, cart)
    else if stock.None? then Step(UpdateError, cart)
    else if amount > stock.value then Step(OutOfStock, cart)
    else
      var i := FindIndex(cart, productId);
      if i >= 0 then
        var r := SetAmount(cart, i, amount);
        assert FindIndex(r, productId) == i by { FindIndexSameIds(cart, r, productId); }
        Step(Ok, r)
      else Step(UpdateError, cart)
  }

  /** The cart read back from the storage slot: what it holds, or empty
      when the slot is absent. */
  function Load(slot: Option<seq<Product>>): (c: seq<Product>) {
    if slot.Some? then slot.value else []
  }

  // Helper lemmas about FindIndex used by the functions above and by CartLaws.

  /** FindIndex's contract determines its result. */
  lemma FindIndexIs(cart: seq<Product>, id: int, r: int)
    requires -1 <= r < |cart|
    requires r == -1 <==> !InCart(cart, id)
    requires r >= 0 ==> cart[r].id == id && forall j :: 0 <= j < r ==> cart[j].id != id
    ensures FindIndex(cart, id) == r
  {
    var f := FindIndex(cart, id);
    if f >= 0 && r >= 0 {
      assert cart[f].id == id && cart[r].id == id;
    }
  }

  /** Changing amounts (or anything but ids) does not move any lookup. */
  lemma FindIndexSameIds(cart: seq<Product>, cart': seq<Product>, id: int)
    requires |cart| == |cart'|
    requires forall i :: 0 <= i < |cart| ==> cart[i].id == cart'[i].id
    ensures FindIndex(cart', id) == FindIndex(cart, id)
  {
    var r := FindIndex(cart, id);
    if r == -1 {
      assert forall i :: 0 <= i < |cart'| ==> cart'[i].id != id;
    } else {
      assert cart'[r].id == id;
    }
    FindIndexIs(cart', id, r);
  }

  /** Where a lookup lands once a line has been appended. */
  lemma FindIndexAppend(cart: seq<Product>, p: Product, id: int)
    ensures FindIndex(cart + [p], id) ==
      if InCart(cart, id) then FindIndex(cart, id) else if p.id == id then |cart| else -1
  {
    var s := cart + [p];
    var r := if InCart(cart, id) then FindIndex(cart, id) else if p.id == id then |cart| else -1;
    if InCart(cart, id) {
      var i :| 0 <= i < |cart| && cart[i].id == id;
      assert s[i].id == id;
      assert s[r] == cart[r];
    } else if p.id == id {
      assert s[|cart|].id == id;
    } else {
      assert forall i :: 0 <= i < |s| ==> s[i].id != id;
    }
    FindIndexIs(s, id, r);
  }

  /** Line `j` of the cart without line `i`. */
  lemma RemovedAt(cart: seq<Product>, i: nat, j: nat)
    requires i < |cart| && j < |cart| - 1
    ensures (cart[..i] + cart[i + 1..])[j] == if j < i then cart[j] else cart[j + 1]
  {
  }

  /** Where a lookup for another id lands once line `i` has been removed. */
  lemma FindIndexRemove(cart: seq<Product>, i: nat, id: int)
    requires i < |cart| && cart[i].id != id
    ensures var f := FindIndex(cart, id);
      FindIndex(cart[..i] + cart[i + 1..], id) == if f == -1 || f < i then f else f - 1
  {
    var s := cart[..i] + cart[i + 1..];
    var f := FindIndex(cart, id);
    var r := if f == -1 || f < i then f else f - 1;
    forall j | 0 <= j < |s| ensures s[j].id == (if j < i then cart[j] else cart[j + 1]).id {
      RemovedAt(cart, i, j);
    }
    if f >= 0 {
      assert s[r] == cart[f] by { RemovedAt(cart, i, r); }
    }
    FindIndexIs(s, id, r);
  }
}

=== FILE: cart_laws.dfy ===
/** What the cart manager's three operations promise, stated over the
    functions of module Cart: the outcome each branch yields, what changes in
    the cart and what does not, the invariant the operations keep, and the
    quantity of every product before and after. */
module CartLaws {
  import opened Cart

  // ---------------------------------------------------------------------
  // addProduct

  /** Adding a product already in the cart, with stock for one more, raises
      that line's amount by exactly one and leaves every other line, the
      length and the order as they were. */
  lemma AddIncrementsExisting(cart: seq<Product>, id: int, n: int, listing: Option<Listing>)
    requires InCart(cart, id) && CurrentAmount(cart, id) + 1 <= n
    ensures var i := FindIndex(cart, id); var s := Add(cart, id, Some(n), listing);
      && s.outcome == Ok
      && |s.cart| == |cart|
      && s.cart[i] == cart[i].(amount := cart[i].amount + 1)
      && forall j :: 0 <= j < |cart| && j != i ==> s.cart[j] == cart[j]
  {
  }

  /** Adding a product not yet in the cart, with at least one in stock,
      appends one line built from the catalogue record with amount 1; when
      the catalogue request fails the add fails and nothing changes. */
  lemma AddAppendsNew(cart: seq<Product>, id: int, n: int, l: Listing)
    requires !InCart(cart, id) && 1 <= n
    ensures var s := Add(cart, id, Some(n), Some(l));
      && s.outcome == Ok
      && |s.cart| == |cart| + 1
      && s.cart[..|cart|] == cart
      && s.cart[|cart|] == Product(l.id, l.details, 1)
    ensures Add(cart, id, Some(n), None) == Step(AddError, cart)
  {
    var s := Add(cart, id, Some(n), Some(l));
    assert s.cart == cart + [NewProduct(l)];
    assert s.cart[..|cart|] == cart;
  }

  /** The add is refused as out of stock exactly when the stock answer is
      below the current amount (0 for an absent product) plus one. */
  lemma AddOutOfStockIff(cart: seq<Product>, id: int, stock: Option<int>, listing: Option<Listing>)
    ensures Add(cart, id, stock, listing).outcome == OutOfStock
        <==> stock.Some? && CurrentAmount(cart, id) + 1 > stock.value
  {
  }

  /** The add fails with the add error exactly when the stock request fails,
      or when stock allows a new line and the catalogue request fails. */
  lemma AddErrorIff(cart: seq<Product>, id: int, stock: Option<int>, listing: Option<Listing>)
    ensures Add(cart, id, stock, listing).outcome == AddError
        <==> stock.None? || (1 <= stock.value && !InCart(cart, id) && listing.None?)
  {
  }

  /** When the catalogue answers with the requested product, an add keeps
      ids distinct and amounts positive. */
  lemma {:induction false} AddKeepsWellFormed(cart: seq<Product>, id: int, stock: Option<int>, listing: Option<Listing>)
    requires WellFormed(cart)
    requires listing.Some? ==> listing.value.id == id
    ensures WellFormed(Add(cart, id, stock, listing).cart)
  {
    var s := Add(cart, id, stock, listing);
    if s.outcome == Ok {
      var i := FindIndex(cart, id);
      if i >= 0 {
        assert forall j :: 0 <= j < |cart| ==> s.cart[j].id == cart[j].id;
      } else {
        var c := s.cart;
        assert c == cart + [NewProduct(listing.value)];
        forall j, k | 0 <= j < k < |c| ensures c[j].id != c[k].id {
          if k == |cart| { assert c[j] == cart[j]; }
        }
      }
    }
  }

  /** A successful add (catalogue answering with the requested product)
      raises the quantity of that product by one and of no other. */
  lemma {:induction false} AddAmounts(cart: seq<Product>, id: int, stock: Option<int>, listing: Option<Listing>)
    requires listing.Some? ==> listing.value.id == id
    requires Add(cart, id, stock, listing).outcome == Ok
    ensures var s := Add(cart, id, stock, listing);
      && CurrentAmount(s.cart, id) == CurrentAmount(cart, id) + 1
      && forall k :: k != id ==> CurrentAmount(s.cart, k) == CurrentAmount(cart, k)
  {
    var s := Add(cart, id, stock, listing);
    var i := FindIndex(cart, id);
    if i >= 0 {
      forall k ensures FindIndex(s.cart, k) == FindIndex(cart, k) {
        FindIndexSameIds(cart, s.cart, k);
      }
    } else {
      forall k ensures CurrentAmount(s.cart, k) == if k == id then 1 else CurrentAmount(cart, k) {
        FindIndexAppend(cart, NewProduct(listing.value), k);
      }
    }
  }

  /** Adding the same absent product twice, with stock for two and a
      catalogue record carrying the requested id, gives one line with
      amount 2, not two lines. */
  lemma {:induction false} AddTwice(cart: seq<Product>, id: int, n: int, l: Listing)
    requires !InCart(cart, id) && 2 <= n && l.id == id
    ensures var s1 := Add(cart, id, Some(n), Some(l));
      Add(s1.cart, id, Some(n), Some(l)) == Step(Ok, cart + [Product(id, l.details, 2)])
  {
    var c1 := cart + [NewProduct(l)];
    FindIndexAppend(cart, NewProduct(l), id);
    assert FindIndex(c1, id) == |cart|;
    assert SetAmount(c1, |cart|, 2) == cart + [Product(id, l.details, 2)];
  }

  // ---------------------------------------------------------------------
  // removeProduct

  /** Removing a present product drops exactly its first line and keeps the
      other lines in order. */
  lemma RemovePresent(cart: seq<Product>, id: int)
    requires InCart(cart, id)
    ensures var i := FindIndex(cart, id); var s := Remove(cart, id);
      && s.outcome == Ok
      && |s.cart| == |cart| - 1
      && cart[i].id == id
      && (forall j :: 0 <= j < i ==> s.cart[j] == cart[j])
      && (forall j :: i <= j < |s.cart| ==> s.cart[j] == cart[j + 1])
  {
    var i := FindIndex(cart, id);
    var c := cart[..i] + cart[i + 1..];
    assert Remove(cart, id) == Step(Ok, c);
    forall j | 0 <= j < i ensures c[j] == cart[j] {
      RemovedAt(cart, i, j);
    }
    forall j | i <= j < |c| ensures c[j] == cart[j + 1] {
      RemovedAt(cart, i, j);
    }
  }

  /** Removing an absent product is the removal error and changes nothing. */
  lemma RemoveAbsent(cart: seq<Product>, id: int)
    requires !InCart(cart, id)
    ensures Remove(cart, id) == Step(RemoveError, cart)
  {
  }

  /** Removal keeps the invariant, and in a well-formed cart the removed
      product is gone altogether. */
  lemma {:induction false} RemoveKeepsWellFormed(cart: seq<Product>, id: int)
    requires WellFormed(cart)
    ensures WellFormed(Remove(cart, id).cart)
    ensures !InCart(Remove(cart, id).cart, id)
  {
    var i := FindIndex(cart, id);
    if i >= 0 {
      var c := cart[..i] + cart[i + 1..];
      forall j | 0 <= j < |c| ensures c[j] == if j < i then cart[j] else cart[j + 1] {
        RemovedAt(cart, i, j);
      }
      forall j | 0 <= j < |c| ensures c[j].id != id {
        if j >= i { assert cart[j + 1].id != cart[i].id; }
      }
    }
  }

  /** A successful removal leaves no quantity of that product in a cart
      with distinct ids and the quantity of every other product as it was. */
  lemma {:induction false} RemoveAmounts(cart: seq<Product>, id: int)
    requires DistinctIds(cart) && InCart(cart, id)
    ensures var s := Remove(cart, id);
      && CurrentAmount(s.cart, id) == 0
      && forall k :: k != id ==> CurrentAmount(s.cart, k) == CurrentAmount(cart, k)
  {
    var i := FindIndex(cart, id);
    var c := cart[..i] + cart[i + 1..];
    forall k | k != id ensures CurrentAmount(c, k) == CurrentAmount(cart, k) {
      FindIndexRemove(cart, i, k);
      var f := FindIndex(cart, k);
      if f > i { RemovedAt(cart, i, f - 1); }
      if 0 <= f < i { RemovedAt(cart, i, f); }
    }
    forall j | 0 <= j < |c| ensures c[j].id != id {
      RemovedAt(cart, i, j);
    }
  }

  /** Removal undoes the add of a new product whose catalogue record
      carries the requested id. */
  lemma {:induction false} RemoveUndoesAdd(cart: seq<Product>, id: int, n: int, l: Listing)
    requires !InCart(cart, id) && 1 <= n && l.id == id
    ensures Remove(Add(cart, id, Some(n), Some(l)).cart, id) == Step(Ok, cart)
  {
    var c := cart + [NewProduct(l)];
    FindIndexAppend(cart, NewProduct(l), id);
    assert c[..|cart|] + c[|cart| + 1..] == cart;
  }

  // ---------------------------------------------------------------------
  // updateProductAmount

  /** A non-positive amount is ignored: no change and no message. */
  lemma UpdateNonPositive(cart: seq<Product>, id: int, amount: int, stock: Option<int>)
    requires amount <= 0
    ensures Update(cart, id, amount, stock) == Step(NoOp, cart)
  {
  }

  /** Stock is checked before presence: an amount above the stock answer is
      refused as out of stock, whether or not the product is in the cart. */
  lemma UpdateOutOfStock(cart: seq<Product>, id: int, amount: int, n: int)
    requires 0 < amount && n < amount
    ensures Update(cart, id, amount, Some(n)) == Step(OutOfStock, cart)
  {
  }

  /** Within stock, a present product's line gets exactly the new amount and
      nothing else changes. */
  lemma UpdateSetsAmount(cart: seq<Product>, id: int, amount: int, n: int)
    requires 0 < amount <= n && InCart(cart, id)
    ensures var i := FindIndex(cart, id); var s := Update(cart, id, amount, Some(n));
      && s.outcome == Ok
      && |s.cart| == |cart|
      && s.cart[i] == cart[i].(amount := amount)
      && forall j :: 0 <= j < |cart| && j != i ==> s.cart[j] == cart[j]
  {
  }

  /** Within stock, an absent product is an update error; a failed stock
      request is one too. Neither changes the cart. */
  lemma UpdateErrorIff(cart: seq<Product>, id: int, amount: int, stock: Option<int>)
    requires 0 < amount
    ensures Update(cart, id, amount, stock).outcome == UpdateError
        <==> stock.None? || (amount <= stock.value && !InCart(cart, id))
  {
  }

  /** An update keeps ids distinct and amounts positive. */
  lemma {:induction false} UpdateKeepsWellFormed(cart: seq<Product>, id: int, amount: int, stock: Option<int>)
    requires WellFormed(cart)
    ensures WellFormed(Update(cart, id, amount, stock).cart)
  {
    var s := Update(cart, id, amount, stock);
    if s.outcome == Ok {
      assert forall j :: 0 <= j < |cart| ==> s.cart[j].id == cart[j].id;
    }
  }

  /** A successful update changes the quantity of no other product. */
  lemma {:induction false} UpdateAmounts(cart: seq<Product>, id: int, amount: int, stock: Option<int>)
    requires Update(cart, id, amount, stock).outcome == Ok
    ensures forall k :: k != id ==>
      CurrentAmount(Update(cart, id, amount, stock).cart, k) == CurrentAmount(cart, k)
  {
    var s := Update(cart, id, amount, stock);
    forall k ensures FindIndex(s.cart, k) == FindIndex(cart, k) {
      FindIndexSameIds(cart, s.cart, k);
    }
  }

  /** Repeating a successful update changes nothing more. */
  lemma {:induction false} UpdateIdempotent(cart: seq<Product>, id: int, amount: int, stock: Option<int>)
    requires Update(cart, id, amount, stock).outcome == Ok
    ensures var s := Update(cart, id, amount, stock);
      Update(s.cart, id, amount, stock) == s
  {
    var s := Update(cart, id, amount, stock);
    var i := FindIndex(cart, id);
    FindIndexSameIds(cart, s.cart, id);
    assert SetAmount(s.cart, i, amount) == s.cart;
  }

  /** Setting a product back to its former amount undoes an increment. */
  lemma {:induction false} UpdateUndoesAdd(cart: seq<Product>, id: int, n: int, listing: Option<Listing>, m: int)
    requires PositiveAmounts(cart) && InCart(cart, id)
    requires CurrentAmount(cart, id) + 1 <= n && CurrentAmount(cart, id) <= m
    ensures var s := Add(cart, id, Some(n), listing);
      Update(s.cart, id, CurrentAmount(cart, id), Some(m)) == Step(Ok, cart)
  {
    var s := Add(cart, id, Some(n), listing);
    var i := FindIndex(cart, id);
    FindIndexSameIds(cart, s.cart, id);
    assert SetAmount(s.cart, i, cart[i].amount) == cart;
  }

  // ---------------------------------------------------------------------
  // A session

  /** Empty cart, five of product 1 in stock: add, add again, ask for ten,
      remove. */
  lemma Session(l: Listing)
    requires l.id == 1
    ensures var s1 := Add([], 1, Some(5), Some(l));
      && s1 == Step(Ok, [Product(1, l.details, 1)])
      && var s2 := Add(s1.cart, 1, Some(5), Some(l));
      && s2 == Step(Ok, [Product(1, l.details, 2)])
      && var s3 := Update(s2.cart, 1, 10, Some(5));
      && s3 == Step(OutOfStock, s2.cart)
      && Remove(s3.cart, 1) == Step(Ok, [])
  {
    var c1 := [Product(1, l.details, 1)];
    assert FindIndex(c1, 1) == 0;
    var c2 := [Product(1, l.details, 2)];
    assert FindIndex(c2, 1) == 0;
  }
}

=== FILE: cart_provider.dfy ===
/** The cart manager as the component runs it: the cart state it publishes
    and the storage slot it writes, both updated in place by its three
    operations. The remote answers (stock and catalogue record) arrive as
    parameters, and the notification an operation would show is its result. */
module CartComponent {
  import opened Cart
  import CartLaws

  class CartProvider {
    /** The cart state published to the components below the provider. */
    var cart: seq<Product>
    /** The `@RocketShoes:cart` storage slot; `None` while it holds nothing. */
    var stored: Option<seq<Product>>

    /** Reloading the storage slot gives back the cart held in memory. */
    ghost predicate Valid()
      reads this
    {
      Load(stored) == cart
    }

    /** The initial state: the stored cart when the slot holds one, else the
        empty cart. Nothing is written. */
    constructor (persisted: Option<seq<Product>>)
      ensures Valid()
      ensures stored == persisted
      ensures persisted.None? ==> cart == []
    {
      stored := persisted;
      if persisted.Some? {
        cart := persisted.value;
      } else {
        cart := [];
      }
    }

    /** `setCart(updated)` followed by overwriting the storage slot with the
        whole cart. */
    method Commit(updated: seq<Product>)
      modifies this
      ensures cart == updated && stored == Some(updated)
      ensures Valid()
    {
      cart := updated;
      stored := Some(updated);
    }

    /** `addProduct(productId)`; `stock` is the answer of `GET /stock/{id}`
        and `listing` that of `GET /products/{id}` (`None`: the request failed). */
    method AddProduct(productId: int, stock: Option<int>, listing: Option<Listing>) returns (outcome: Outcome)
      requires Valid()
      modifies this
      ensures Valid()
      ensures Step(outcome, cart) == Add(old(cart), productId, stock, listing)
      ensures outcome == Ok ==> stored == Some(cart)
      ensures outcome != Ok ==> cart == old(cart) && stored == old(stored)
      ensures WellFormed(old(cart)) && (listing.Some? ==> listing.value.id == productId) ==> WellFormed(cart)
    {
      if WellFormed(cart) && (listing.Some? ==> listing.value.id == productId) {
        CartLaws.AddKeepsWellFormed(cart, productId, stock, listing);
      }
      var updatedCart := cart;
      var index := FindIndex(updatedCart, productId);
      if stock.None? {
        return AddError;
      }
      var stockAmount := stock.value;
      var currentAmount := if index >= 0 then updatedCart[index].amount else 0;
      var amount := currentAmount + 1;
      if amount > stockAmount {
        return OutOfStock;
      }
      if index >= 0 {
        updatedCart := updatedCart[index := updatedCart[index].(amount := amount)];
      } else {
        if listing.None? {
          return AddError;
        }
        updatedCart := updatedCart + [NewProduct(listing.value)];
      }
      Commit(updatedCart);
      outcome := Ok;
    }

    /** `removeProduct(productId)`. */
    method RemoveProduct(productId: int) returns (outcome: Outcome)
      requires Valid()
      modifies this
      ensures Valid()
      ensures Step(outcome, cart) == Remove(old(cart), productId)
      ensures outcome == Ok ==> stored == Some(cart)
      ensures outcome != Ok ==> cart == old(cart) && stored == old(stored)
      ensures WellFormed(old(cart)) ==> WellFormed(cart) && !InCart(cart, productId)
    {
      if WellFormed(cart) {
        CartLaws.RemoveKeepsWellFormed(cart, productId);
      }
      var updateCart := cart;
      var productIndex := FindIndex(updateCart, productId);
      if productIndex >= 0 {
        updateCart := updateCart[..productIndex] + updateCart[productIndex + 1..];
        Commit(updateCart);
        outcome := Ok;
      } else {
        outcome := RemoveError;
      }
    }

    /** `updateProductAmount({productId, amount})`; `stock` is the answer of
        `GET /stock/{id}` (`None`: the request failed). */
    method UpdateProductAmount(productId: int, amount: int, stock: Option<int>) returns (outcome: Outcome)
      requires Valid()
      modifies this
      ensures Valid()
      ensures Step(outcome, cart) == Update(old(cart), productId, amount, stock)
      ensures outcome == Ok ==> stored == Some(cart)
      ensures outcome != Ok ==> cart == old(cart) && stored == old(stored)
      ensures WellFormed(old(cart)) ==> WellFormed(cart)
    {
      if WellFormed(cart) {
        CartLaws.UpdateKeepsWellFormed(cart, productId, amount, stock);
      }
      if amount <= 0 {
        return NoOp;
      }
      if stock.None? {
        return UpdateError;
      }
      var stockAmount := stock.value;
      if amount > stockAmount {
        return OutOfStock;
      }
      var updatedCart := cart;
      var index := FindIndex(updatedCart, productId);
      if index >= 0 {
        updatedCart := updatedCart[index := updatedCart[index].(amount := amount)];
        Commit(updatedCart);
        outcome := Ok;
      } else {
        outcome := UpdateError;
      }
    }
  }
}
